=== FILE: README.md ===
# Document detection: the live-capture step and its file helpers

This project models the logic of a document-detection demo that wraps an
external YOLO detector. Two parts are modelled.

- **The live-capture callback** of `app/streamlit_demo.py`.
  `video_frame_callback` keeps three process globals: the frame counter `i`,
  the flag `captured` and `capture_time`. Here they are an explicit `Session`
  value, and `StreamlitDemo.Step` is a pure function of that session, the
  disk, the output directory and one `Frame`. A `Frame` is what the outside
  world supplies to one call: the clock reading, the detector's boxes, the
  frame shape, the draws of `generate_random_id`, and the name of the
  timestamp directory. Every fifth call samples the frame. A sampled frame is
  compared with a fixed target rectangle, is saved subject to a cap of ten
  images, and after a capture a five-second "Captured!" banner is shown
  before the images are archived.
- **The helpers of `app/utils/commons.py`**:
  - `create_directory` and `move_images`, over an abstract disk;
  - `generate_random_id`, with its randomness passed in as draws;
  - the path naming of `save_image`;
  - `get_image_crops`, with numpy/Python slice semantics.

The disk (`FileSystem.Disk`) is two sets of paths, one for directories and
one for regular files. A path is a list of names. `glob("<dir>/*.jpg")`
becomes `FileSystem.GlobJpg`: every entry directly inside the directory
whose name ends in `.jpg` and does not start with a dot. `cv2.imwrite`
becomes `FileSystem.WriteFile`, which fails silently when the directory is
missing or the target is a directory. `CaptureRun` threads the session and
the disk through a sequence of calls.

A few behaviours of the code are worth noting; the model follows the code:

- **Capturing.** The session becomes `captured` only when `save_image`
  refuses to write because the directory is full. A successful save leaves
  it uncaptured (`StreamlitDemo.Detect`).
- **Starting the timer.** The banner timer starts on the first sampled frame
  after the capture, not at the capture itself.
- **Box classes.** Boxes are not filtered to the document class. The first
  box of any other class that the loop reaches gives "Adjust document in
  the rectangle" (`StreamlitDemo.Scan`).
- **Tolerance.** The relative tolerance of the alignment test scales with
  the *predicted* coordinate. So a box shifted by slightly more than
  `0.05 + 5%` of the target can still be aligned
  (`StreamlitDemo.ShiftAboveTargetToleranceCanBeClose`). The exact window is
  given by `StreamlitDemo.CloseWindow`.
- **Batch path.** There is no batch video path to model: `detect()` in
  `app/engine/detect.py` is an empty stub.

## Model

| member | source | states |
|---|---|---|
| `StreamlitDemo.BoundingBoxPoints` | app/streamlit_demo.py:39-48 | For a frame of height H and width W the target is top-left (W//2 - 100, H//2 + 60) and bottom-right (W//2 + 100, H//2 + 220). The computation goes through float `int()` truncation, and the rectangle is exactly `WIDTH` wide and `HEIGHT + 80` tall |
| `StreamlitDemo.CloseWindow` | app/streamlit_demo.py:110-114 | For an integer target `a`, `isclose(a, p)` with atol = rtol = 0.05 holds exactly for `p` in one closed interval, given by both bounds (both directions) |
| `StreamlitDemo.TargetIsAligned` | app/streamlit_demo.py:89-92 | A predicted box equal to the target rectangle passes the four-coordinate closeness test |
| `StreamlitDemo.FarIsNotClose` | app/streamlit_demo.py:110-114 | A coordinate further than `(0.05 + 0.05·|a|)/0.95` from its target is never close, so the box is not aligned |
| `StreamlitDemo.ShiftAboveTargetToleranceCanBeClose` | app/streamlit_demo.py:110-111 | A shift of 5.1 from target 100, which exceeds `0.05 + 5%·100`, is still close, because the tolerance is taken relative to the predicted value |
| `StreamlitDemo.Scan` | app/streamlit_demo.py:101-150 | Scanning in order: the result is the first box that is not an unaligned class-0 box. It is `Found` when that box is an aligned class-0 box, `Foreign` when it has another class, and `Missing` exactly when every box is skipped (including the empty list) |
| `StreamlitDemo.CaptureName` | app/streamlit_demo.py:56-57 | The saved file is named `<id>.jpg`: its first 10 characters are the alphanumeric id `generate_random_id` returns for the draws, then `.jpg`, a name the `*.jpg` glob matches |
| `StreamlitDemo.SaveCapped` | app/streamlit_demo.py:51-59 | Returns true exactly when the directory already holds 10 or more `*.jpg` entries, and then the disk is unchanged. Otherwise no file is lost and at most the file `<id>.jpg` is added. When the write fails silently (missing directory, or that name is a directory) the disk is unchanged. When the name is new the glob count grows by exactly one |
| `StreamlitDemo.Detect` | app/streamlit_demo.py:86-154 | After the prediction, the outcome follows the scan. "Not Detected" holds iff every box is skipped, "Adjust" iff a foreign class is reached first, and a save attempt iff an aligned document is reached first. It is `BufferFull` iff the directory was full. The session becomes captured only on `BufferFull`. On `Saved` the disk is the capped save's result and the session is left uncaptured; on every other outcome the disk is unchanged |
| `StreamlitDemo.Step` | app/streamlit_demo.py:65-154 | The counter advances by one on every call, or resets to 0 when archiving, and keeps its phase modulo 5; nothing else happens unless the new counter is a multiple of 5. A sampled frame of a captured session whose timer has not run out (including the first one after the capture, with no capture time yet) shows exactly the banner: disk unchanged, still captured, capture time stamped with `now` if unset. A sampled frame whose timer has run out always archives, and archiving happens only then. On a sampled call, `captured` afterwards holds iff the outcome is the banner or `BufferFull`. The invariant `capture_time set ⇒ captured` is preserved. Every call, whether it saves, archives or does nothing, keeps a well-formed disk well formed |
| `StreamlitDemo.ExpiryResetsThenDetects` | app/streamlit_demo.py:80-86 | Once more than `TIMER_DURATION` has elapsed, the call archives and resets to counter 0, not captured, no capture time. If `move_images` raises, that is the outcome and the disk is unchanged. Otherwise the result is exactly detection on the reset session and the archived disk |
| `StreamlitDemo.ArchivingFrameNeverBufferFull` | app/streamlit_demo.py:80-86 | On the call that archives successfully, no image is left in the directory, so an aligned document on that frame is always written rather than refused |
| `StreamlitDemo.ArchiveLeavesNoImage` | app/utils/commons.py:52-65 | After a successful `move_images` into a timestamp directory whose name does not end in `.jpg`, the `*.jpg` glob of the source directory is empty |
| `StreamlitDemo.SaveCappedPreservesValid` | app/streamlit_demo.py:51-59 | The capped save keeps a well-formed disk well formed |
| `StreamlitDemo.UncapturedFrameDetects` | app/streamlit_demo.py:101-137 | A sampled frame of an uncaptured session saves iff an aligned document comes first and there is room. It is `BufferFull` iff there is no room. The disk changes only on a save. It is then exactly the capped save's result: the new image is added when the write succeeds, and nothing changes when `cv2.imwrite` fails silently |
| `CaptureRun.Run` | app/streamlit_demo.py:68-70 | Over any sequence of calls, including the resets after an archive, a call is sampled (it returns a frame, or raises from `move_images`) exactly when the counter it advances to, counted from the starting counter without resets, is a multiple of 5 |
| `CaptureRun.SampledPositions` | app/streamlit_demo.py:68-70 | That phase property holds iff call `j` is sampled exactly when `counter + j + 1` is a multiple of 5 (both directions) |
| `CaptureRun.PhaseShift` | app/streamlit_demo.py:68-70 | Whether calls follow the sampling phase depends on the starting counter only modulo 5, which is why resetting the counter to 0 on a multiple of 5 keeps the stride |
| `CaptureRun.AlignedCount` | app/streamlit_demo.py:68-70 | Of `n` calls that follow that sampling phase, `(counter mod 5 + n) / 5` are sampled, which is `n / 5` from the initial session |
| `CaptureRun.OutputCount` | app/streamlit_demo.py:68-70 | Any run of `n` calls from a session with counter `c` has `(c mod 5 + n) / 5` sampled calls, each returning a frame or raising from `move_images`, whatever the detector, the clock and the disk do |
| `CaptureRun.RunPreservesValid` | app/streamlit_demo.py:65-154 | Any sequence of calls keeps a well-formed disk well formed |
| `CaptureRun.BannerHolds` | app/streamlit_demo.py:73-79 | While the clock stays within `TIMER_DURATION` of the capture time, every call yields nothing or the banner. The disk is untouched and the session stays captured with the same capture time |
| `Commons.CreateDirectory` | app/utils/commons.py:14-26 | An existing path is left alone. Otherwise the directory is created, with only its missing ancestors added, and the call fails exactly when an ancestor is a file. Afterwards the path exists |
| `Commons.CreateDirectoryIdempotent` | app/utils/commons.py:24-25 | A second `create_directory` of the same path changes nothing |
| `Commons.CreateDirectoryPreservesValid` | app/utils/commons.py:24-25 | Creating a directory keeps the disk well formed: files and directories stay disjoint, and every entry has a directory as its parent |
| `Commons.AlphabetIsAlphanumerics` | app/utils/commons.py:36 | The alphabet has 62 symbols. A character is in it iff it is an ASCII letter or digit, and each one sits at a single index |
| `Commons.GenerateRandomId` | app/utils/commons.py:29-38 | The id has length 10 and every character is an ASCII letter or digit |
| `Commons.RandomIdBijection` | app/utils/commons.py:36-37 | Draws and ids correspond one to one: every 10-character alphanumeric id comes from exactly one sequence of draws |
| `Commons.MoveImages` | app/utils/commons.py:41-68 | With no top-level `*.jpg` entry the disk is unchanged and nothing is created. A failure is only possible when there was something to move |
| `Commons.MoveImagesArchives` | app/utils/commons.py:52-65 | A successful archive creates `<source>/<timestamp>` as a directory and moves each top-level image there under the same name, with everything below a moved directory following it. It leaves no image directly in the source other than the timestamp directory itself and keeps every entry not below an image where it was. Every file and directory afterwards is one of those, or `<source>/<timestamp>` and its newly created ancestors |
| `Commons.MoveImagesPreservesValid` | app/utils/commons.py:56-65 | A successful archive keeps the disk well formed: no directory and file share a path, and every entry's parent is a directory |
| `Commons.MoveImagesFailsOnlyOnExistingDestination` | app/utils/commons.py:56-64 | On a well-formed disk, archiving can only fail when the timestamp path already existed |
| `Commons.AncestorsAreDirectories` | app/utils/commons.py:24-25 | On a well-formed disk every proper ancestor of an existing path is a directory, so creating a subdirectory of an existing directory cannot fail |
| `Commons.SaveImagePaths` | app/utils/commons.py:71-102 | A non-list image, or a one-element list, gives exactly `[file_name.jpg]`. A list of n ≠ 1 images gives n paths, path k decoding back to index k, which pins it to `file_name_k.jpg` (`Commons.IndexOfPathExact`). All paths are pairwise distinct, and the empty list gives `[]` |
| `Commons.IndexedPathRoundTrip` | app/utils/commons.py:91-95 | Reading the index back out of `f"{file_name}_{k}.jpg"` gives `k` |
| `Commons.IndexOfPathExact` | app/utils/commons.py:93 | Only the exact name `f"{file_name}_{k}.jpg"` decodes to `k`: a numeral with a leading zero or any other spelling is rejected |
| `Commons.PySliceRules` | app/utils/commons.py:123 | `s[lo:hi]` follows Python's rules, each stated as an equation with a simpler slice: in-range bounds give the subsequence `s[lo..hi]`, a negative bound equals the slice with `len(s)` added, one below `-len(s)` clamps to 0, one past the end clamps to `len(s)`, and crossed or out-of-range bounds give `[]` |
| `Commons.GetImageCrops` | app/utils/commons.py:105-125 | One crop per box, in order. Each crop stays within the image, and for an in-bounds box crop k has `ymax - ymin` rows of `xmax - xmin` pixels with `crop[r][c] = img[ymin + r][xmin + c]` |
| `Commons.CropShape` | app/utils/commons.py:121-124 | `img_array[ymin:ymax, xmin:xmax]` of a rectangular image never exceeds it, and for a box inside the image has exactly the box's rows and columns with the pixels at the box offset |
| `Decimal.ParseRendered` | app/utils/commons.py:93 | The decimal numeral `f"{i}"` reads back as `i`, so distinct indices give distinct names |
| `Decimal.RenderParsed` | app/utils/commons.py:93 | Conversely, a nonempty numeral without a leading zero is `f"{i}"` of the number it denotes |
| `FileSystem.GlobOnlyInDirectories` | app/utils/commons.py:54 | On a well-formed disk `glob(f"{dir}/*.jpg")` can be non-empty only when `dir` is an existing directory |
| `FileSystem.WriteFileGlob` | app/streamlit_demo.py:52-58 | `cv2.imwrite` changes the `*.jpg` glob of a directory only by the written path, which it adds exactly when the write succeeds and the path is a `*.jpg` entry of that directory |
| `FileSystem.WriteFilePreservesValid` | app/streamlit_demo.py:58 | `cv2.imwrite` keeps a well-formed disk well formed, whether it writes or fails silently |

## Left out

- The YOLO model, `model.predict` and `Annotator`. They are an external black box, so the detector's output is an input list of boxes, each a class id and four real coordinates.
- cv2 drawing, `av.VideoFrame` conversion and the pixel content of written files. The outcome names which text the frame would carry; file writes are modelled by name only.
- The Streamlit page, the `result_queue` consumer thread and `remove_images` (app/streamlit_demo.py:157-183). They are UI. The `Saved` outcome stands for the frame being queued.
- Wall-clock time. The callback reads `time.time()` twice (lines 75 and 77); the model reads one `now` per call, so a freshly stamped capture time shows an elapsed time of exactly zero.
- The `datetime.now()` timestamp format. The directory name is an opaque `stamp` argument.
- Float32 rounding and NaN handling in `torch.isclose`. Coordinates are exact reals.
- The randomness of `random.choice`. The ten draws are a parameter, each an index below 62.
- Console output (`print`) of `create_directory` and `move_images`.
- `plot_images`, which is matplotlib display.
- `main.py`, which is HTTP plumbing. `app/engine/detect.py` is an empty stub. `setup.py` is packaging. The constants of `app/constants/constants.py` are inlined as `Width`, `Height`, `TimerDuration`, the stride 5 and the cap 10.
- The exception `move_images` raises (app/streamlit_demo.py:84) propagates out of the callback, which then returns no frame. The model records it as the outcome `ArchiveFailed` instead; the globals were already reset before the call, so the next call continues from the reset session, as in the source.
- Glob metacharacters inside directory names, and file-system errors other than a non-directory ancestor (permissions, full disk).
- Commons.MoveImages: three conflicts are reported as an atomic `Conflict` error that leaves the disk unchanged. They arise only when the timestamp directory already exists. In one, an image is moved onto an existing directory, where `shutil.move` would nest it inside. In another, a directory is moved onto a file. In the third, the timestamp directory is itself a `*.jpg` entry of the source and would be moved into itself. On any error, images moved before the failing one would already have moved in the source.
- Commons.SaveImagePaths: only the returned paths are modelled. The writes are not; the non-list branch writes its file twice, the second time from `img_array[0]`.
- Commons.GetImageCrops: requires a rectangular grid, as a numpy array always is. For boxes outside the image only the size bounds are stated; the exact contents follow from `Commons.PySlice` and `Commons.PySliceRules`.

=== FILE: capture_run.dfy ===
/**
 * Consecutive calls of the live-capture callback: the session and the disk
 * threaded through a sequence of frames, as the media pipeline does.
 */
module CaptureRun {
  import opened Results
  import opened FileSystem
  import Commons
  import opened StreamlitDemo

  predicate AllDrawsValid(frames: seq<Frame>) {
    forall k | 0 <= k < |frames| :: Commons.ValidDraws(frames[k].draws)
  }

  datatype RunResult = RunResult(session: Session, disk: Disk, outcomes: seq<Outcome>)

  /**
   * The calls recorded in `outcomes`, made from counter `c`, follow the
   * sampling phase: each is a sampled call (it returns a frame, or raises
   * from `move_images`) exactly when the counter it advances to is a
   * multiple of five.
   */
  predicate PhaseAligned(c: nat, outcomes: seq<Outcome>)
    decreases |outcomes|
  {
    outcomes == []
    || ((outcomes[0] != NoOutput <==> (c + 1) % Stride == 0) && PhaseAligned(c + 1, outcomes[1..]))
  }

  /** Call `j` of an aligned run from counter `c` is sampled exactly when `c + j + 1` is a multiple of five. */
  lemma {:induction false} SampledPositions(c: nat, outcomes: seq<Outcome>)
    ensures PhaseAligned(c, outcomes)
        <==> forall j | 0 <= j < |outcomes| :: outcomes[j] != NoOutput <==> (c + j + 1) % Stride == 0
    decreases |outcomes|
  {
    if outcomes != [] {
      var rest := outcomes[1..];
      SampledPositions(c + 1, rest);
      if forall j | 0 <= j < |outcomes| :: outcomes[j] != NoOutput <==> (c + j + 1) % Stride == 0 {
        forall j | 0 <= j < |rest|
          ensures rest[j] != NoOutput <==> (c + 1 + j + 1) % Stride == 0
        {
          assert rest[j] == outcomes[j + 1];
        }
      }
      if PhaseAligned(c, outcomes) {
        forall j | 1 <= j < |outcomes|
          ensures outcomes[j] != NoOutput <==> (c + j + 1) % Stride == 0
        {
          assert outcomes[j] == rest[j - 1];
        }
      }
    }
  }

  /**
   * The callback applied to each frame in turn. The sampling stride survives
   * the counter resets: call `j` is sampled exactly when
   * `s.counter + j + 1` is a multiple of five.
   */
  function Run(s: Session, d: Disk, dir: Path, frames: seq<Frame>): (r: RunResult)
    requires AllDrawsValid(frames)
    ensures |r.outcomes| == |frames|
    ensures PhaseAligned(s.counter, r.outcomes)
    decreases |frames|
  {
    if frames == [] then RunResult(s, d, [])
    else
      var first := Step(s, d, dir, frames[0]);
      var rest := Run(first.session, first.disk, dir, frames[1..]);
      PrependCall(s.counter, first.session.counter, first.outcome, rest.outcomes);
      RunResult(rest.session, rest.disk, [first.outcome] + rest.outcomes)
  }

  /** How many calls were sampled: each returned a frame, or raised from `move_images`. */
  function CountSampled(outcomes: seq<Outcome>): nat {
    if outcomes == [] then 0
    else (if outcomes[0] == NoOutput then 0 else 1) + CountSampled(outcomes[1..])
  }

  /**
   * Of `n` calls aligned on the sampling phase from counter `c`,
   * `(c mod 5 + n) / 5` are sampled: `n / 5` from the initial session.
   */
  lemma {:induction false} AlignedCount(c: nat, outcomes: seq<Outcome>)
    requires PhaseAligned(c, outcomes)
    ensures CountSampled(outcomes) == (c % Stride + |outcomes|) / Stride
    decreases |outcomes|
  {
    if outcomes != [] {
      var rest := outcomes[1..];
      assert outcomes == [outcomes[0]] + rest;
      AlignedCount(c + 1, rest);
      PrependCount(c, c + 1, outcomes[0], rest);
    }
  }

  /** The number of sampled calls in a run depends only on the starting counter and the number of calls. */
  lemma OutputCount(s: Session, d: Disk, dir: Path, frames: seq<Frame>)
    requires AllDrawsValid(frames)
    ensures CountSampled(Run(s, d, dir, frames).outcomes) == (s.counter % Stride + |frames|) / Stride
  {
    AlignedCount(s.counter, Run(s, d, dir, frames).outcomes);
  }

  /**
   * While the clock stays within `TimerDuration` of the capture time, the
   * callback only shows the banner: no detection, no write, no archive, and
   * the session stays captured with the same capture time.
   */
  lemma {:induction false} BannerHolds(s: Session, d: Disk, dir: Path, frames: seq<Frame>, t0: real)
    requires AllDrawsValid(frames)
    requires s.captured && s.captureTime == Some(t0)
    requires forall k | 0 <= k < |frames| :: frames[k].now - t0 <= TimerDuration
    ensures var r := Run(s, d, dir, frames);
      && r.disk == d && r.session.captured && r.session.captureTime == Some(t0)
      && forall j | 0 <= j < |frames| :: r.outcomes[j] in {NoOutput, CapturedBanner}
    decreases |frames|
  {
    if frames != [] {
      var first := Step(s, d, dir, frames[0]);
      assert first.disk == d && first.session.captured && first.session.captureTime == Some(t0);
      BannerHolds(first.session, first.disk, dir, frames[1..], t0);
      var r := Run(s, d, dir, frames);
      var rest := Run(first.session, first.disk, dir, frames[1..]);
      forall j | 0 <= j < |frames|
        ensures r.outcomes[j] in {NoOutput, CapturedBanner}
      {
        if j > 0 {
          assert r.outcomes[j] == rest.outcomes[j - 1];
        }
      }
    }
  }

  /** A run of calls keeps a well-formed disk well formed. */
  lemma {:induction false} RunPreservesValid(s: Session, d: Disk, dir: Path, frames: seq<Frame>)
    requires AllDrawsValid(frames)
    requires Valid(d)
    ensures Valid(Run(s, d, dir, frames).disk)
    decreases |frames|
  {
    if frames != [] {
      var first := Step(s, d, dir, frames[0]);
      RunPreservesValid(first.session, first.disk, dir, frames[1..]);
    }
  }

  /** The phase property of a run, extended by one call in front. */
  lemma PrependCall(c: nat, c': nat, o: Outcome, rest: seq<Outcome>)
    requires o != NoOutput <==> (c + 1) % Stride == 0
    requires c' % Stride == (c + 1) % Stride
    requires PhaseAligned(c', rest)
    ensures PhaseAligned(c, [o] + rest)
  {
    assert ([o] + rest)[1..] == rest;
    PhaseShift(c', c + 1, rest);
  }

  /** Alignment depends on the counter only through its phase. */
  lemma {:induction false} PhaseShift(a: nat, b: nat, outcomes: seq<Outcome>)
    requires a % Stride == b % Stride
    ensures PhaseAligned(a, outcomes) <==> PhaseAligned(b, outcomes)
    decreases |outcomes|
  {
    if outcomes != [] {
      SamePhase(a, b, 1);
      PhaseShift(a + 1, b + 1, outcomes[1..]);
    }
  }

  /** The count of a run, extended by one call in front. */
  lemma PrependCount(c: nat, c': nat, o: Outcome, rest: seq<Outcome>)
    requires o != NoOutput <==> (c + 1) % Stride == 0
    requires c' % Stride == (c + 1) % Stride
    requires CountSampled(rest) == (c' % Stride + |rest|) / Stride
    ensures CountSampled([o] + rest) == (c % Stride + |rest| + 1) / Stride
  {
    assert ([o] + rest)[1..] == rest;
    assert CountSampled([o] + rest) == (if o == NoOutput then 0 else 1) + CountSampled(rest);
    CountAfterOneCall(c, c', |rest|);
  }

  /** Counters in the same phase stay in the same phase. */
  lemma SamePhase(a: nat, b: nat, j: nat)
    requires a % Stride == b % Stride
    ensures (a + j) % Stride == (b + j) % Stride
  {
    var qa, qb := a / Stride, b / Stride;
    assert a == Stride * qa + a % Stride;
    assert b == Stride * qb + b % Stride;
    assert a + j == b + j + Stride * (qa - qb);
  }

  /** Peeling one call off the count of multiples of five. */
  lemma CountAfterOneCall(c: nat, c': nat, n: nat)
    requires c' % Stride == (c + 1) % Stride
    ensures (c % Stride + n + 1) / Stride
         == (if (c + 1) % Stride == 0 then 1 else 0) + (c' % Stride + n) / Stride
  {
    if c % Stride == Stride - 1 {
      assert c' % Stride == 0;
    } else {
      assert c' % Stride == c % Stride + 1;
    }
  }
}

=== FILE: commons.dfy ===
/**
 * The helpers of app/utils/commons.py: directory creation, random ids,
 * archiving of captured images, output path naming and image cropping.
 */
module Commons {
  import opened Results
  import opened FileSystem
  import Decimal

  // ---------------------------------------------------------------------
  // create_directory
  // ---------------------------------------------------------------------

  /** The non-root ancestors of `p`, and `p` itself. */
  function Prefixes(p: Path): set<Path> {
    set k | 1 <= k <= |p| :: p[..k]
  }

  /**
   * `create_directory`: nothing happens when the path exists (as a file or a
   * directory); otherwise `os.makedirs` creates it with every missing
   * ancestor, and raises when an ancestor is a file.
   */
  function CreateDirectory(d: Disk, p: Path): (r: Result<Disk, FsError>)
    ensures Exists(d, p) ==> r == Success(d)
    ensures r.Success? ==> Exists(r.value, p) && r.value.files == d.files && d.dirs <= r.value.dirs
    ensures r.Success? ==> forall q | q in r.value.dirs && q !in d.dirs :: 0 < |q| <= |p| && q == p[..|q|]
    ensures !Exists(d, p) ==> (r.Failure? <==> exists k | 0 < k < |p| :: p[..k] in d.files)
    ensures r.Failure? ==> r.error == NotADirectory
  {
    if Exists(d, p) then Success(d)
    else if exists k | 0 < k < |p| :: p[..k] in d.files then Failure(NotADirectory)
    else
      assert p[..|p|] == p;
      Success(d.(dirs := d.dirs + Prefixes(p)))
  }

  /** A second call changes nothing. */
  lemma CreateDirectoryIdempotent(d: Disk, p: Path)
    requires CreateDirectory(d, p).Success?
    ensures CreateDirectory(CreateDirectory(d, p).value, p) == CreateDirectory(d, p)
  {
  }

  lemma CreateDirectoryPreservesValid(d: Disk, p: Path)
    requires Valid(d)
    requires CreateDirectory(d, p).Success?
    ensures Valid(CreateDirectory(d, p).value)
  {
    if !Exists(d, p) {
      var d1 := CreateDirectory(d, p).value;
      forall q | q in d1.dirs
        ensures |q| > 0 && IsDir(d1, Parent(q)) && q !in d1.files
      {
        if q !in d.dirs {
          assert q == p[..|q|];
          if |q| > 1 {
            assert Parent(q) == p[..|q| - 1];
          }
          if |q| == |p| {
            assert q == p;
          }
        }
      }
    }
  }

  // ---------------------------------------------------------------------
  // generate_random_id
  // ---------------------------------------------------------------------

  const IdLength := 10

  /** The `n` consecutive ASCII characters starting at `first`. */
  function CharRange(first: char, n: nat): (s: string)
    requires first as int + n <= 128
    ensures |s| == n
    ensures forall k | 0 <= k < n :: s[k] as int == first as int + k
  {
    if n == 0 then [] else CharRange(first, n - 1) + [(first as int + n - 1) as char]
  }

  /** `string.ascii_letters + string.digits`. */
  const Alphabet: string := CharRange('a', 26) + CharRange('A', 26) + CharRange('0', 10)

  predicate IsAlnum(c: char) {
    'a' <= c <= 'z' || 'A' <= c <= 'Z' || '0' <= c <= '9'
  }

  /** The position of an ASCII letter or digit in `Alphabet`. */
  function AlphabetIndex(c: char): (k: nat)
    requires IsAlnum(c)
    ensures k < |Alphabet| && Alphabet[k] == c
  {
    if 'a' <= c <= 'z' then c as int - 'a' as int
    else if 'A' <= c <= 'Z' then 26 + (c as int - 'A' as int)
    else 52 + (c as int - '0' as int)
  }

  /** `Alphabet` holds every ASCII letter and digit exactly once, and nothing else. */
  lemma AlphabetIsAlphanumerics()
    ensures |Alphabet| == 62
    ensures forall k | 0 <= k < |Alphabet| :: IsAlnum(Alphabet[k]) && AlphabetIndex(Alphabet[k]) == k
    ensures forall c :: IsAlnum(c) <==> c in Alphabet
  {
    forall k | 0 <= k < |Alphabet|
      ensures IsAlnum(Alphabet[k]) && AlphabetIndex(Alphabet[k]) == k
    {
      if k < 26 {
        assert Alphabet[k] as int == 'a' as int + k;
      } else if k < 52 {
        assert Alphabet[k] as int == 'A' as int + (k - 26);
      } else {
        assert Alphabet[k] as int == '0' as int + (k - 52);
      }
    }
    forall c | c in Alphabet
      ensures IsAlnum(c)
    {
      var k :| 0 <= k < |Alphabet| && Alphabet[k] == c;
    }
    forall c | IsAlnum(c)
      ensures c in Alphabet
    {
      var k := AlphabetIndex(c);
    }
  }

  /** The ten `random.choice` draws, each an index into `Alphabet`. */
  predicate ValidDraws(draws: seq<nat>) {
    |draws| == IdLength && forall k | 0 <= k < |draws| :: draws[k] < |Alphabet|
  }

  predicate IsRandomId(id: string) {
    |id| == IdLength && forall k | 0 <= k < |id| :: IsAlnum(id[k])
  }

  /** `generate_random_id`, with the randomness supplied as the draws. */
  function GenerateRandomId(draws: seq<nat>): (id: string)
    requires ValidDraws(draws)
    ensures IsRandomId(id)
  {
    AlphabetIsAlphanumerics();
    seq(IdLength, k requires 0 <= k < IdLength => Alphabet[draws[k]])
  }

  /** The draws that produce a given id. */
  function DrawsOf(id: string): (draws: seq<nat>)
    requires IsRandomId(id)
    ensures ValidDraws(draws)
  {
    seq(IdLength, k requires 0 <= k < IdLength => AlphabetIndex(id[k]))
  }

  /** Every 10-character alphanumeric string is produced by exactly one choice of draws. */
  lemma RandomIdBijection(draws: seq<nat>, id: string)
    requires ValidDraws(draws)
    requires IsRandomId(id)
    ensures GenerateRandomId(DrawsOf(id)) == id
    ensures DrawsOf(GenerateRandomId(draws)) == draws
  {
    AlphabetIsAlphanumerics();
  }

  // ---------------------------------------------------------------------
  // move_images
  // ---------------------------------------------------------------------

  /** `q` is one of the `moving` entries (all children of `src`) or lies below one. */
  predicate Below(src: Path, moving: set<Path>, q: Path) {
    |q| > |src| && q[..|src| + 1] in moving
  }

  /** Where `shutil.move` puts `q`: entries below a moved one follow it into `dest`. */
  function Relocated(src: Path, dest: Path, moving: set<Path>, q: Path): Path {
    if Below(src, moving, q) then dest + q[|src|..] else q
  }

  /**
   * `shutil.move(p, dest)` would not be a plain rename to `dest/<name>`:
   * `p` is `dest` itself, the target is a directory, or a directory would
   * replace a file.
   */
  predicate Blocked(d: Disk, src: Path, dest: Path, p: Path)
    requires |p| > |src|
  {
    var t := dest + [p[|src|]];
    p == dest || t in d.dirs || (p in d.dirs && t in d.files)
  }

  /**
   * `d'` is `d` after the top-level `*.jpg` entries of `src` moved into
   * `dest`: `dest` is a directory, no image is left directly in `src`, each
   * image is in `dest` under its own name, everything below a moved
   * directory follows it, every entry not below an image is where it was,
   * and `d'` holds nothing else but `dest` and its missing ancestors.
   */
  ghost predicate Archived(d: Disk, d': Disk, src: Path, dest: Path)
    requires IsChild(src, dest)
  {
    var moving := GlobJpg(d, src);
    && IsDir(d', dest)
    && GlobJpg(d', src) <= {dest}
    && (forall p | p in moving && p in d.files :: dest + [p[|src|]] in d'.files)
    && (forall p | p in moving && p in d.dirs :: dest + [p[|src|]] in d'.dirs)
    && (forall q | q in d.files && !Below(src, moving, q) :: q in d'.files)
    && (forall q | q in d.dirs && !Below(src, moving, q) :: q in d'.dirs)
    && (forall q | q in d.files && Below(src, moving, q) :: dest + q[|src|..] in d'.files)
    && (forall q | q in d.dirs && Below(src, moving, q) :: dest + q[|src|..] in d'.dirs)
    && (forall q | q in d'.dirs ::
          || (q in d.dirs && !Below(src, moving, q))
          || (0 < |q| <= |dest| && q == dest[..|q|])
          || (|q| > |dest| && q[..|dest|] == dest
              && src + q[|dest|..] in d.dirs && Below(src, moving, src + q[|dest|..])))
    && (forall q | q in d'.files ::
          || (q in d.files && !Below(src, moving, q))
          || (|q| > |dest| && q[..|dest|] == dest
              && src + q[|dest|..] in d.files && Below(src, moving, src + q[|dest|..])))
  }

  /** The disk after every entry below `moving` followed it into `dest`. */
  function RelocateAll(d: Disk, src: Path, dest: Path, moving: set<Path>): Disk {
    Disk(set q | q in d.dirs :: Relocated(src, dest, moving, q),
         set q | q in d.files :: Relocated(src, dest, moving, q))
  }

  /**
   * `move_images(src)` with the timestamp directory name `stamp`: every
   * top-level `*.jpg` entry of `src` moves, under its own name, into
   * `src/<stamp>`, which is created first. With nothing to move, nothing
   * happens.
   */
  function MoveImages(d: Disk, src: Path, stamp: Name): (r: Result<Disk, FsError>)
    ensures GlobJpg(d, src) == {} ==> r == Success(d)
    ensures r.Failure? ==> GlobJpg(d, src) != {}
  {
    var moving := GlobJpg(d, src);
    var dest := src + [stamp];
    if moving == {} then Success(d)
    else
      match CreateDirectory(d, dest)
      case Failure(e) => Failure(e)
      case Success(d1) =>
        if !IsDir(d1, dest) then Failure(NotADirectory)
        else if exists p | p in moving :: Blocked(d1, src, dest, p) then Failure(Conflict)
        else Success(RelocateAll(d1, src, dest, moving))
  }

  /** A successful archive of a non-empty image set has the shape `Archived` describes. */
  lemma MoveImagesArchives(d: Disk, src: Path, stamp: Name)
    requires GlobJpg(d, src) != {}
    requires MoveImages(d, src, stamp).Success?
    ensures Archived(d, MoveImages(d, src, stamp).value, src, src + [stamp])
  {
    var moving := GlobJpg(d, src);
    var dest := src + [stamp];
    var d1 := CreateDirectory(d, dest).value;
    var d' := RelocateAll(d1, src, dest, moving);
    assert MoveImages(d, src, stamp).value == d';
    assert IsDir(d1, dest);
    assert dest !in moving by {
      if dest in moving {
        assert Blocked(d1, src, dest, dest);
      }
    }
    assert dest[..|src| + 1] == dest;
    assert Relocated(src, dest, moving, dest) == dest;
    assert IsDir(d', dest);
    RelocatedImages(d, d1, src, dest, moving);
    UntouchedEntries(d, d1, src, dest, moving);
    NoImageLeft(d, d1, src, dest, moving);
    RelocatedFilesCameFromSource(d, d1, src, dest, moving);
    SubtreesFollow(d, d1, src, dest, moving);
    RelocatedDirsAccounted(d, d1, src, dest, moving);
  }

  /** Every entry below a moved one reappears at the same place below `dest`. */
  lemma SubtreesFollow(d: Disk, d1: Disk, src: Path, dest: Path, moving: set<Path>)
    requires d1.files == d.files && d.dirs <= d1.dirs
    ensures forall q | q in d.files && Below(src, moving, q) :: dest + q[|src|..] in RelocateAll(d1, src, dest, moving).files
    ensures forall q | q in d.dirs && Below(src, moving, q) :: dest + q[|src|..] in RelocateAll(d1, src, dest, moving).dirs
  {
    forall q | Below(src, moving, q)
      ensures Relocated(src, dest, moving, q) == dest + q[|src|..]
    {
    }
  }

  /** The directories after the move: untouched ones, `dest` and its new ancestors, and moved ones. */
  lemma RelocatedDirsAccounted(d: Disk, d1: Disk, src: Path, dest: Path, moving: set<Path>)
    requires IsChild(src, dest)
    requires forall p | p in moving :: IsChild(src, p)
    requires dest !in moving
    requires d.dirs <= d1.dirs
    requires forall q | q in d1.dirs && q !in d.dirs :: 0 < |q| <= |dest| && q == dest[..|q|]
    ensures forall q | q in RelocateAll(d1, src, dest, moving).dirs ::
          || (q in d.dirs && !Below(src, moving, q))
          || (0 < |q| <= |dest| && q == dest[..|q|])
          || (|q| > |dest| && q[..|dest|] == dest
              && src + q[|dest|..] in d.dirs && Below(src, moving, src + q[|dest|..]))
  {
    forall q0 | q0 in d1.dirs
      ensures var q := Relocated(src, dest, moving, q0);
          || (q in d.dirs && !Below(src, moving, q))
          || (0 < |q| <= |dest| && q == dest[..|q|])
          || (|q| > |dest| && q[..|dest|] == dest
              && src + q[|dest|..] in d.dirs && Below(src, moving, src + q[|dest|..]))
    {
      if Below(src, moving, q0) {
        var p := q0[..|src| + 1];
        assert p != dest;
        assert q0[..|dest|] == p;
        assert q0 in d.dirs;
        var q := dest + q0[|src|..];
        assert q[..|dest|] == dest;
        assert p[..|src|] == src;
        assert src + q[|dest|..] == q0;
      }
    }
  }

  lemma RelocatedImages(d: Disk, d1: Disk, src: Path, dest: Path, moving: set<Path>)
    requires IsChild(src, dest)
    requires moving == GlobJpg(d, src)
    requires d1.files == d.files && d.dirs <= d1.dirs
    ensures forall p | p in moving && p in d.files :: dest + [p[|src|]] in RelocateAll(d1, src, dest, moving).files
    ensures forall p | p in moving && p in d.dirs :: dest + [p[|src|]] in RelocateAll(d1, src, dest, moving).dirs
  {
    forall p | p in moving
      ensures Relocated(src, dest, moving, p) == dest + [p[|src|]]
    {
      assert p[..|src| + 1] == p;
      assert p[|src|..] == [p[|src|]];
    }
  }

  lemma UntouchedEntries(d: Disk, d1: Disk, src: Path, dest: Path, moving: set<Path>)
    requires d1.files == d.files && d.dirs <= d1.dirs
    ensures forall q | q in d.files && !Below(src, moving, q) :: q in RelocateAll(d1, src, dest, moving).files
    ensures forall q | q in d.dirs && !Below(src, moving, q) :: q in RelocateAll(d1, src, dest, moving).dirs
  {
    forall q | !Below(src, moving, q)
      ensures Relocated(src, dest, moving, q) == q
    {
    }
  }

  lemma NoImageLeft(d: Disk, d1: Disk, src: Path, dest: Path, moving: set<Path>)
    requires IsChild(src, dest)
    requires moving == GlobJpg(d, src)
    requires d1.files == d.files && d.dirs <= d1.dirs
    requires forall q | q in d1.dirs && q !in d.dirs :: |q| <= |dest| && q == dest[..|q|]
    ensures GlobJpg(RelocateAll(d1, src, dest, moving), src) <= {dest}
  {
    var d' := RelocateAll(d1, src, dest, moving);
    forall p | p in GlobJpg(d', src)
      ensures p == dest
    {
      var q0 :| (q0 in d1.dirs || q0 in d1.files) && Relocated(src, dest, moving, q0) == p;
      assert !Below(src, moving, q0);
      assert q0 == p && q0[..|src| + 1] == q0;
      assert q0 !in moving;
      assert q0 !in d.dirs && q0 !in d.files;
      assert q0 == dest[..|q0|];
    }
  }

  lemma RelocatedFilesCameFromSource(d: Disk, d1: Disk, src: Path, dest: Path, moving: set<Path>)
    requires IsChild(src, dest)
    requires forall p | p in moving :: IsChild(src, p)
    requires d1.files == d.files
    ensures forall q | q in RelocateAll(d1, src, dest, moving).files ::
          || (q in d.files && !Below(src, moving, q))
          || (|q| > |dest| && q[..|dest|] == dest
              && src + q[|dest|..] in d.files && Below(src, moving, src + q[|dest|..]))
  {
    forall q | q in RelocateAll(d1, src, dest, moving).files
      ensures || (q in d.files && !Below(src, moving, q))
              || (|q| > |dest| && q[..|dest|] == dest
                  && src + q[|dest|..] in d.files && Below(src, moving, src + q[|dest|..]))
    {
      var q0 :| q0 in d1.files && Relocated(src, dest, moving, q0) == q;
      if Below(src, moving, q0) {
        var p := q0[..|src| + 1];
        assert p in moving;
        assert q0[..|src|] == p[..|src|] == src;
        assert q[..|dest|] == dest;
        assert q[|dest|..] == q0[|src|..];
        assert src + q[|dest|..] == q0;
      }
    }
  }

  /** On a well-formed disk every proper ancestor of an existing path is a directory. */
  lemma {:induction false} AncestorsAreDirectories(d: Disk, q: Path)
    requires Valid(d)
    requires Exists(d, q)
    ensures forall k | 0 <= k < |q| :: IsDir(d, q[..k])
    decreases |q|
  {
    if q != [] {
      var parent := Parent(q);
      assert IsDir(d, parent);
      AncestorsAreDirectories(d, parent);
      forall k | 0 <= k < |q|
        ensures IsDir(d, q[..k])
      {
        if k < |parent| {
          assert q[..k] == parent[..k];
        } else {
          assert q[..k] == parent;
        }
      }
    }
  }

  /** What `move_images` has established before it relocates: `dest` is a directory inside `src` and no move is blocked. */
  predicate Unblocked(d: Disk, src: Path, dest: Path, moving: set<Path>) {
    && IsChild(src, dest) && dest in d.dirs
    && forall p | p in moving :: IsChild(src, p) && !Blocked(d, src, dest, p)
  }

  /** A successful archive keeps the disk well formed. */
  lemma MoveImagesPreservesValid(d: Disk, src: Path, stamp: Name)
    requires Valid(d)
    requires MoveImages(d, src, stamp).Success?
    ensures Valid(MoveImages(d, src, stamp).value)
  {
    var moving := GlobJpg(d, src);
    if moving != {} {
      var dest := src + [stamp];
      assert CreateDirectory(d, dest).Success?;
      CreateDirectoryPreservesValid(d, dest);
      var d1 := CreateDirectory(d, dest).value;
      assert IsDir(d1, dest) && !exists p | p in moving :: Blocked(d1, src, dest, p);
      assert MoveImages(d, src, stamp).value == RelocateAll(d1, src, dest, moving);
      assert dest[..|src|] == src;
      forall p | p in moving
        ensures IsChild(src, p) && !Blocked(d1, src, dest, p)
      {
      }
      RelocatePreservesValid(d1, src, dest, moving);
    }
  }

  lemma RelocatePreservesValid(d1: Disk, src: Path, dest: Path, moving: set<Path>)
    requires Valid(d1) && Unblocked(d1, src, dest, moving)
    ensures Valid(RelocateAll(d1, src, dest, moving))
  {
    forall q | q in d1.dirs || q in d1.files
      ensures |Relocated(src, dest, moving, q)| > 0
      ensures IsDir(RelocateAll(d1, src, dest, moving), Parent(Relocated(src, dest, moving, q)))
    {
      RelocatedParent(d1, src, dest, moving, q);
    }
    forall q1, q2 | q1 in d1.dirs && q2 in d1.files
      ensures Relocated(src, dest, moving, q1) != Relocated(src, dest, moving, q2)
    {
      RelocatedApart(d1, src, dest, moving, q1, q2);
    }
  }

  /** A relocated entry is not the root, and its parent is a directory afterwards. */
  lemma RelocatedParent(d1: Disk, src: Path, dest: Path, moving: set<Path>, q: Path)
    requires Valid(d1) && Unblocked(d1, src, dest, moving)
    requires q in d1.dirs || q in d1.files
    ensures |Relocated(src, dest, moving, q)| > 0
    ensures IsDir(RelocateAll(d1, src, dest, moving), Parent(Relocated(src, dest, moving, q)))
  {
    var r := Relocated(src, dest, moving, q);
    var pq := Parent(q);
    if Below(src, moving, q) {
      if |q| == |src| + 1 {
        assert dest[..|src| + 1] == dest;
        assert dest !in moving by {
          forall p | p in moving
            ensures p != dest
          {
            assert !Blocked(d1, src, dest, p);
          }
        }
        assert Relocated(src, dest, moving, dest) == dest;
        assert Parent(r) == dest;
      } else {
        assert pq[..|src| + 1] == q[..|src| + 1];
        assert pq in d1.dirs;
        assert Parent(r) == dest + pq[|src|..];
      }
    } else {
      if |pq| > |src| {
        assert pq[..|src| + 1] == q[..|src| + 1];
      }
      assert Relocated(src, dest, moving, pq) == pq;
    }
  }

  /** A directory and a file never land on the same path: any move that would make them do so is blocked. */
  lemma RelocatedApart(d1: Disk, src: Path, dest: Path, moving: set<Path>, q1: Path, q2: Path)
    requires Valid(d1) && Unblocked(d1, src, dest, moving)
    requires q1 in d1.dirs && q2 in d1.files
    ensures Relocated(src, dest, moving, q1) != Relocated(src, dest, moving, q2)
  {
    var b1, b2 := Below(src, moving, q1), Below(src, moving, q2);
    if b1 && b2 {
      BothMovedApart(src, dest, moving, q1, q2);
    } else if b1 {
      MovedApartFromStaying(d1, src, dest, moving, q1, q2);
    } else if b2 {
      MovedApartFromStaying(d1, src, dest, moving, q2, q1);
    }
  }

  /** Two different entries that both move stay different. */
  lemma BothMovedApart(src: Path, dest: Path, moving: set<Path>, q1: Path, q2: Path)
    requires Below(src, moving, q1) && Below(src, moving, q2)
    requires forall p | p in moving :: IsChild(src, p)
    requires q1 != q2
    ensures Relocated(src, dest, moving, q1) != Relocated(src, dest, moving, q2)
  {
    var p1, p2 := q1[..|src| + 1], q2[..|src| + 1];
    assert q1[..|src|] == p1[..|src|] && q2[..|src|] == p2[..|src|];
    assert q1 == src + q1[|src|..] && q2 == src + q2[|src|..];
    var r1, r2 := Relocated(src, dest, moving, q1), Relocated(src, dest, moving, q2);
    assert r1[|dest|..] == q1[|src|..] && r2[|dest|..] == q2[|src|..];
  }

  /**
   * An entry `qm` that moves never lands on an entry `qs` that stays, when
   * one of them is a directory and the other a file.
   */
  lemma MovedApartFromStaying(d1: Disk, src: Path, dest: Path, moving: set<Path>, qm: Path, qs: Path)
    requires Valid(d1) && Unblocked(d1, src, dest, moving)
    requires Below(src, moving, qm) && !Below(src, moving, qs)
    requires (qm in d1.dirs && qs in d1.files) || (qm in d1.files && qs in d1.dirs)
    ensures Relocated(src, dest, moving, qm) != qs
  {
    var p := qm[..|src| + 1];
    var t := dest + [p[|src|]];
    var rm := Relocated(src, dest, moving, qm);
    assert !Blocked(d1, src, dest, p);
    assert rm[..|dest| + 1] == t;
    if |qm| == |src| + 1 {
      assert qm == p;
      assert rm == t;
    } else {
      AncestorsAreDirectories(d1, qs);
      if |qs| > |dest| + 1 {
        assert IsDir(d1, qs[..|dest| + 1]);
        assert qs[..|dest| + 1] != t;
      }
    }
  }

  /**
   * On a well-formed disk, archiving can only fail when the timestamp
   * directory was already there: a fresh one is always created and filled.
   */
  lemma MoveImagesFailsOnlyOnExistingDestination(d: Disk, src: Path, stamp: Name)
    requires Valid(d)
    ensures MoveImages(d, src, stamp).Failure? ==> Exists(d, src + [stamp])
  {
    var moving := GlobJpg(d, src);
    var dest := src + [stamp];
    if moving != {} && !Exists(d, dest) {
      var p0 :| p0 in moving;
      assert Parent(p0) == src;
      assert IsDir(d, src);
      AncestorsAreDirectories(d, src);
      forall k | 0 < k < |dest|
        ensures dest[..k] !in d.files
      {
        assert dest[..k] == src[..k];
        if k < |src| {
          assert IsDir(d, src[..k]);
        } else {
          assert src[..k] == src;
        }
      }
      var d1 := CreateDirectory(d, dest).value;
      assert dest in d1.dirs;
      forall p | p in moving
        ensures !Blocked(d1, src, dest, p)
      {
        var t := dest + [p[|src|]];
        assert Parent(t) == dest;
        assert t !in d.dirs && t !in d.files;
        assert t !in d1.dirs;
      }
    }
  }

  // ---------------------------------------------------------------------
  // save_image (output path naming)
  // ---------------------------------------------------------------------

  /** The `img_array` argument: one image array, or a Python list of them. */
  datatype ImageArg<T> = Array(image: T) | List(images: seq<T>)

  /** `f"{fileName}_{k}.jpg"`. */
  function IndexedPath(fileName: string, k: nat): string {
    fileName + "_" + Decimal.NatToString(k) + ".jpg"
  }

  /**
   * The paths `save_image(img_array, file_name)` writes to and returns, in
   * order: a single image, or a one-element list, gives `file_name.jpg`; any
   * other list gives one indexed path per element.
   */
  function SaveImagePaths<T>(arg: ImageArg<T>, fileName: string): (paths: seq<string>)
    ensures arg.Array? ==> paths == [fileName + ".jpg"]
    ensures arg.List? && |arg.images| == 1 ==> paths == [fileName + ".jpg"]
    ensures arg.List? && |arg.images| != 1 ==> |paths| == |arg.images|
    ensures arg.List? && |arg.images| != 1 ==>
      forall k | 0 <= k < |paths| :: IndexOfPath(fileName, paths[k]) == Some(k)
    ensures forall j, k | 0 <= j < k < |paths| :: paths[j] != paths[k]
  {
    match arg
    case Array(_) => [fileName + ".jpg"]
    case List(images) =>
      if |images| == 1 then [fileName + ".jpg"]
      else
        var paths := seq(|images|, k requires 0 <= k < |images| => IndexedPath(fileName, k));
        forall k | 0 <= k < |paths|
          ensures IndexOfPath(fileName, paths[k]) == Some(k)
        {
          IndexedPathRoundTrip(fileName, k);
        }
        forall j, k | 0 <= j < k < |paths|
          ensures paths[j] != paths[k]
        {
          IndexedPathRoundTrip(fileName, j);
          IndexedPathRoundTrip(fileName, k);
        }
        paths
  }

  /**
   * Recovers `k` from `f"{fileName}_{k}.jpg"`; `None` for any other string,
   * including a numeral with a leading zero, which `f"{k}"` never produces.
   */
  function IndexOfPath(fileName: string, path: string): Option<nat> {
    var n := |fileName|;
    if |path| >= n + 6 && path[..n] == fileName && path[n] == '_' && path[|path| - 4..] == ".jpg"
       && (forall i | n + 1 <= i < |path| - 4 :: Decimal.IsDigit(path[i]))
       && (path[n + 1] != '0' || |path| == n + 6)
    then Some(Decimal.ParseDecimal(path[n + 1..|path| - 4]))
    else None
  }

  /** Naming an index and reading it back agree. */
  lemma IndexedPathRoundTrip(fileName: string, k: nat)
    ensures IndexOfPath(fileName, IndexedPath(fileName, k)) == Some(k)
  {
    var digits := Decimal.NatToString(k);
    var path := IndexedPath(fileName, k);
    var n := |fileName|;
    assert path[..n] == fileName;
    assert path[n] == '_';
    assert path[n + 1..|path| - 4] == digits;
    assert path[|path| - 4..] == ".jpg";
    Decimal.ParseRendered(k);
  }

  /** The decoder accepts only the exact name: a path that decodes to `k` is `f"{fileName}_{k}.jpg"`. */
  lemma IndexOfPathExact(fileName: string, path: string, k: nat)
    requires IndexOfPath(fileName, path) == Some(k)
    ensures path == IndexedPath(fileName, k)
  {
    var n := |fileName|;
    var digits := path[n + 1..|path| - 4];
    assert forall i | 0 <= i < |digits| :: digits[i] == path[n + 1 + i];
    Decimal.RenderParsed(digits);
    assert path == path[..n] + [path[n]] + digits + path[|path| - 4..];
  }

  // ---------------------------------------------------------------------
  // get_image_crops
  // ---------------------------------------------------------------------

  /** An image as rows of pixels. */
  type Grid<T> = seq<seq<T>>

  /** A crop box `(xmin, ymin, xmax, ymax)` in pixel indices. */
  datatype CropBox = CropBox(xmin: int, ymin: int, xmax: int, ymax: int)

  /** Python's normalisation of a slice bound: negative counts from the end, then clamp to `[0, n]`. */
  function SliceBound(i: int, n: nat): (b: nat)
    ensures b <= n
    ensures 0 <= i <= n ==> b == i
  {
    if i < 0 then (if i + n < 0 then 0 else i + n)
    else if i < n then i
    else n
  }

  /** `s[lo:hi]` with Python semantics: never fails, empty when the bounds cross. */
  function PySlice<T>(s: seq<T>, lo: int, hi: int): (r: seq<T>)
    ensures var a, b := SliceBound(lo, |s|), SliceBound(hi, |s|);
      && |r| == (if a <= b then b - a else 0)
      && forall k | 0 <= k < |r| :: r[k] == s[a + k]
  {
    var a := SliceBound(lo, |s|);
    var b := SliceBound(hi, |s|);
    if a <= b then s[a..b] else []
  }

  /**
   * Python's slicing rules, each relating a slice to a simpler one: in-range
   * bounds are a plain subsequence, a negative bound counts from the end (and
   * clamps to 0 below `-|s|`), a bound past the end clamps to `|s|`, and
   * crossed bounds give nothing.
   */
  lemma PySliceRules<T>(s: seq<T>, lo: int, hi: int)
    ensures 0 <= lo <= hi <= |s| ==> PySlice(s, lo, hi) == s[lo..hi]
    ensures -|s| <= lo < 0 ==> PySlice(s, lo, hi) == PySlice(s, lo + |s|, hi)
    ensures -|s| <= hi < 0 ==> PySlice(s, lo, hi) == PySlice(s, lo, hi + |s|)
    ensures lo < -|s| ==> PySlice(s, lo, hi) == PySlice(s, 0, hi)
    ensures hi < -|s| ==> PySlice(s, lo, hi) == []
    ensures hi > |s| ==> PySlice(s, lo, hi) == PySlice(s, lo, |s|)
    ensures lo >= |s| ==> PySlice(s, lo, hi) == []
    ensures 0 <= hi <= lo ==> PySlice(s, lo, hi) == []
  {
  }

  /** `img_array[ymin:ymax, xmin:xmax]`. */
  function Crop<T>(img: Grid<T>, box: CropBox): Grid<T> {
    var rows := PySlice(img, box.ymin, box.ymax);
    seq(|rows|, r requires 0 <= r < |rows| => PySlice(rows[r], box.xmin, box.xmax))
  }

  predicate Rectangular<T>(img: Grid<T>, width: nat) {
    forall r | 0 <= r < |img| :: |img[r]| == width
  }

  predicate InBounds<T>(img: Grid<T>, width: nat, box: CropBox) {
    0 <= box.xmin <= box.xmax <= width && 0 <= box.ymin <= box.ymax <= |img|
  }

  /**
   * `get_image_crops`: one crop per box, in box order. For a box inside an
   * image of the given width, the crop is the sub-rectangle it names.
   */
  function GetImageCrops<T>(img: Grid<T>, width: nat, boxes: seq<CropBox>): (crops: seq<Grid<T>>)
    requires Rectangular(img, width)
    ensures |crops| == |boxes|
    ensures forall k | 0 <= k < |boxes| && InBounds(img, width, boxes[k]) ::
      var b := boxes[k];
      && |crops[k]| == b.ymax - b.ymin
      && (forall r | 0 <= r < |crops[k]| :: |crops[k][r]| == b.xmax - b.xmin)
      && (forall r, c | 0 <= r < |crops[k]| && 0 <= c < |crops[k][r]| ::
            crops[k][r][c] == img[b.ymin + r][b.xmin + c])
    ensures forall k | 0 <= k < |boxes| ::
      |crops[k]| <= |img| && forall r | 0 <= r < |crops[k]| :: |crops[k][r]| <= width
  {
    var crops := seq(|boxes|, k requires 0 <= k < |boxes| => Crop(img, boxes[k]));
    forall k | 0 <= k < |boxes|
      ensures CropFits(img, width, boxes[k], crops[k])
    {
      CropShape(img, width, boxes[k]);
    }
    crops
  }

  /** `crop` lies within the image, and is exactly the sub-rectangle `box` names when that lies within the image. */
  ghost predicate CropFits<T>(img: Grid<T>, width: nat, box: CropBox, crop: Grid<T>)
    requires Rectangular(img, width)
  {
    && |crop| <= |img|
    && (forall r | 0 <= r < |crop| :: |crop[r]| <= width)
    && (InBounds(img, width, box) ==>
          && |crop| == box.ymax - box.ymin
          && (forall r | 0 <= r < |crop| :: |crop[r]| == box.xmax - box.xmin)
          && (forall r, c | 0 <= r < |crop| && 0 <= c < |crop[r]| ::
                crop[r][c] == img[box.ymin + r][box.xmin + c]))
  }

  /** Cropping a rectangular image gives a crop that fits it. */
  lemma CropShape<T>(img: Grid<T>, width: nat, box: CropBox)
    requires Rectangular(img, width)
    ensures CropFits(img, width, box, Crop(img, box))
  {
    var rows := PySlice(img, box.ymin, box.ymax);
    var a := SliceBound(box.ymin, |img|);
    forall r | 0 <= r < |rows|
      ensures |rows[r]| == width
    {
      assert rows[r] == img[a + r];
    }
  }
}

=== FILE: decimal.dfy ===
/** Decimal rendering of natural numbers, as Python's f"{i}" does it. */
module Decimal {

  predicate IsDigit(c: char) {
    '0' <= c <= '9'
  }

  function DigitChar(d: nat): (c: char)
    requires d < 10
    ensures IsDigit(c)
  {
    ('0' as int + d) as char
  }

  function DigitValue(c: char): nat
    requires IsDigit(c)
  {
    c as int - '0' as int
  }

  /** The shortest decimal numeral of `n`: no sign, no leading zero. */
  function NatToString(n: nat): (s: string)
    ensures |s| > 0
    ensures forall k :: 0 <= k < |s| ==> IsDigit(s[k])
    ensures |s| > 1 ==> s[0] != '0'
  {
    if n < 10 then [DigitChar(n)] else NatToString(n / 10) + [DigitChar(n % 10)]
  }

  /** Reads a string of digits back as a number, most significant digit first. */
  function ParseDecimal(s: string): nat
    requires forall k :: 0 <= k < |s| ==> IsDigit(s[k])
  {
    if s == [] then 0 else ParseDecimal(s[..|s| - 1]) * 10 + DigitValue(s[|s| - 1])
  }

  /** Parsing undoes rendering. */
  lemma {:induction false} ParseRendered(n: nat)
    ensures ParseDecimal(NatToString(n)) == n
  {
    var s := NatToString(n);
    if n < 10 {
      assert s[..|s| - 1] == [];
    } else {
      var t := NatToString(n / 10);
      assert s[..|s| - 1] == t;
      ParseRendered(n / 10);
    }
  }

  /** A numeral that does not start with '0' denotes a positive number. */
  lemma {:induction false} ParseLeadingNonzero(s: string)
    requires |s| > 0 && forall k :: 0 <= k < |s| ==> IsDigit(s[k])
    requires s[0] != '0'
    ensures ParseDecimal(s) > 0
    decreases |s|
  {
    if |s| > 1 {
      ParseLeadingNonzero(s[..|s| - 1]);
    }
  }

  /** Rendering undoes parsing on canonical numerals: nonempty, and no leading zero unless the numeral is "0". */
  lemma {:induction false} RenderParsed(s: string)
    requires |s| > 0 && forall k :: 0 <= k < |s| ==> IsDigit(s[k])
    requires |s| > 1 ==> s[0] != '0'
    ensures NatToString(ParseDecimal(s)) == s
    decreases |s|
  {
    if |s| == 1 {
      assert s[..0] == [];
    } else {
      var u := s[..|s| - 1];
      ParseLeadingNonzero(u);
      RenderParsed(u);
      assert s == u + [s[|s| - 1]];
    }
  }
}

=== FILE: filesystem.dfy ===
/**
 * An abstract disk: the set of directory paths and the set of regular-file
 * paths. A path is the list of its components below the root; the root is
 * `[]` and always exists. Pixel content is not represented.
 */
module FileSystem {

  type Name = string
  type Path = seq<Name>

  datatype Disk = Disk(dirs: set<Path>, files: set<Path>)

  /** The errno-style failures a file operation can raise. */
  datatype FsError =
    | NotADirectory   // a path component that must be a directory is a file
    | Conflict        // the destination is occupied in a way the move cannot resolve

  function Parent(p: Path): Path
    requires |p| > 0
  {
    p[..|p| - 1]
  }

  predicate IsDir(d: Disk, p: Path) {
    p == [] || p in d.dirs
  }

  /** `os.path.exists`. */
  predicate Exists(d: Disk, p: Path) {
    IsDir(d, p) || p in d.files
  }

  /** A disk a real file system could be in. */
  predicate Valid(d: Disk) {
    && [] !in d.dirs
    && [] !in d.files
    && d.dirs !! d.files
    && (forall p | p in d.dirs :: |p| > 0 && IsDir(d, Parent(p)))
    && (forall p | p in d.files :: |p| > 0 && IsDir(d, Parent(p)))
  }

  /** `p` is an entry directly inside `dir`. */
  predicate IsChild(dir: Path, p: Path) {
    |p| == |dir| + 1 && p[..|dir|] == dir
  }

  /**
   * The shell pattern `*.jpg` on one name: the name ends in ".jpg" (case
   * sensitive) and, since `*` never matches a leading dot, does not start
   * with '.'.
   */
  predicate IsJpgName(n: Name) {
    |n| >= 4 && n[|n| - 4..] == ".jpg" && n[0] != '.'
  }

  /** The glob of pattern `*.jpg` inside `dir`: every entry, file or directory, directly in `dir` whose name matches. */
  function GlobJpg(d: Disk, dir: Path): (r: set<Path>)
    ensures forall p :: p in r <==> Exists(d, p) && IsChild(dir, p) && IsJpgName(p[|dir|])
  {
    set p | p in d.dirs + d.files && IsChild(dir, p) && IsJpgName(p[|dir|])
  }

  /**
   * `cv2.imwrite(p, img)`: creates or overwrites the file when its directory
   * exists and `p` is not a directory; otherwise the write fails silently and
   * nothing changes.
   */
  function WriteFile(d: Disk, p: Path): (r: Disk)
    ensures r.dirs == d.dirs
    ensures |p| > 0 && IsDir(d, Parent(p)) && p !in d.dirs ==> r.files == d.files + {p}
    ensures !(|p| > 0 && IsDir(d, Parent(p)) && p !in d.dirs) ==> r == d
  {
    if |p| > 0 && IsDir(d, Parent(p)) && p !in d.dirs then d.(files := d.files + {p}) else d
  }

  /** `cv2.imwrite` keeps a well-formed disk well formed. */
  lemma WriteFilePreservesValid(d: Disk, p: Path)
    requires Valid(d)
    ensures Valid(WriteFile(d, p))
  {
  }

  /**
   * Writing `p` changes the glob of `dir` only by `p` itself, and adds it
   * exactly when the write succeeds and `p` is a `*.jpg` entry of `dir`.
   */
  lemma WriteFileGlob(d: Disk, p: Path, dir: Path)
    ensures GlobJpg(WriteFile(d, p), dir)
         == GlobJpg(d, dir)
          + (if |p| > 0 && IsDir(d, Parent(p)) && p !in d.dirs && IsChild(dir, p) && IsJpgName(p[|dir|])
             then {p} else {})
  {
  }

  /** On a well-formed disk only an existing directory has a non-empty glob: a missing one globs to nothing. */
  lemma GlobOnlyInDirectories(d: Disk, dir: Path)
    requires Valid(d)
    ensures GlobJpg(d, dir) != {} ==> IsDir(d, dir)
  {
    if GlobJpg(d, dir) != {} {
      var p :| p in GlobJpg(d, dir);
      assert Parent(p) == dir;
    }
  }
}

=== FILE: results.dfy ===
/** Failure-carrying wrappers shared by the other modules. */
module Results {

  /** A value that may be absent (Python's `None`). */
  datatype Option<+T> = None | Some(value: T)

  /** The outcome of an operation that can raise: a value or the error it raised. */
  datatype Result<+T, +E> = Success(value: T) | Failure(error: E)
}

=== FILE: streamlit_demo.dfy ===
/**
 * The live-capture logic of app/streamlit_demo.py: the target rectangle,
 * the demo's capped `save_image`, the alignment test, the scan over the
 * detector's boxes, and `video_frame_callback` as a pure step over an
 * explicit session.
 */
module StreamlitDemo {
  import opened Results
  import opened FileSystem
  import Commons

  /** Width of the target rectangle (`WIDTH`). */
  const Width := 200
  /** Height constant of the target rectangle (`HEIGHT`); the drawn rectangle is 80 px taller. */
  const Height := 80
  /** Seconds the "Captured!" banner stays up before archiving (`TIMER_DURATION`). */
  const TimerDuration: real := 5.0
  /** Only every fifth frame is processed. */
  const Stride := 5
  /** Images the output directory may hold before `save_image` refuses. */
  const Capacity := 10
  /** Absolute and relative tolerance of the alignment test. */
  const ATol: real := 0.05
  const RTol: real := 0.05

  // ---------------------------------------------------------------------
  // bounding_box_points
  // ---------------------------------------------------------------------

  datatype Point = Point(x: int, y: int)
  datatype Rect = Rect(topLeft: Point, bottomRight: Point)

  /** Python's `int()` on a float: truncation toward zero. */
  function Trunc(r: real): int {
    if r >= 0.0 then r.Floor else -((-r).Floor)
  }

  /**
   * `bounding_box_points((height, width, ...))`: the centre is found with
   * floor division, the corner with `int(c - WIDTH / 2)` in floating point.
   */
  function BoundingBoxPoints(height: nat, width: nat): (r: Rect)
    ensures r.topLeft == Point(width / 2 - 100, height / 2 + 60)
    ensures r.bottomRight == Point(width / 2 + 100, height / 2 + 220)
    ensures r.bottomRight.x - r.topLeft.x == Width
    ensures r.bottomRight.y - r.topLeft.y == Height + 80
  {
    var cx := width / 2;
    var cy := height / 2;
    var x := Trunc(cx as real - Width as real / 2.0);
    var y := Trunc(cy as real - Height as real / 2.0);
    Rect(Point(x, y + 100), Point(x + Width, y + Height + 180))
  }

  // ---------------------------------------------------------------------
  // Alignment: torch.isclose over the four corner coordinates
  // ---------------------------------------------------------------------

  function Abs(x: real): real {
    if x < 0.0 then -x else x
  }

  /**
   * `torch.isclose(a, p, atol, rtol)` on one coordinate. The relative part
   * scales with the predicted value `p`, not with the target `a`.
   */
  predicate IsClose(a: real, p: real) {
    Abs(a - p) <= ATol + RTol * Abs(p)
  }

  /** One detection: class id and corners `(x1, y1, x2, y2)`. */
  datatype Box = Box(cls: int, x1: real, y1: real, x2: real, y2: real)

  /** All four coordinates of `b` are close to the target's. */
  predicate Aligned(target: Rect, b: Box) {
    && IsClose(target.topLeft.x as real, b.x1)
    && IsClose(target.topLeft.y as real, b.y1)
    && IsClose(target.bottomRight.x as real, b.x2)
    && IsClose(target.bottomRight.y as real, b.y2)
  }

  /** The lowest value close to the integer target `a`. */
  function LowestClose(a: int): real {
    if a as real - ATol >= 0.0 then (a as real - ATol) / (1.0 + RTol) else (a as real - ATol) / (1.0 - RTol)
  }

  /** The highest value close to the integer target `a`. */
  function HighestClose(a: int): real {
    if a as real + ATol >= 0.0 then (a as real + ATol) / (1.0 - RTol) else (a as real + ATol) / (1.0 + RTol)
  }

  /** For an integer target the values close to it form one closed interval. */
  lemma CloseWindow(a: int, p: real)
    ensures IsClose(a as real, p) <==> LowestClose(a) <= p <= HighestClose(a)
  {
    if a >= 1 {
    } else if a <= -1 {
    } else {
      assert a == 0;
    }
  }

  /** A box exactly on the target rectangle is aligned, whatever its class. */
  lemma TargetIsAligned(target: Rect, cls: int)
    ensures Aligned(target, Box(cls, target.topLeft.x as real, target.topLeft.y as real,
                                     target.bottomRight.x as real, target.bottomRight.y as real))
  {
  }

  /**
   * Moving a coordinate away from its target by more than
   * `(ATol + RTol * |a|) / (1 - RTol)` always breaks closeness.
   */
  lemma FarIsNotClose(a: real, p: real)
    requires Abs(p - a) > (ATol + RTol * Abs(a)) / (1.0 - RTol)
    ensures !IsClose(a, p)
  {
  }

  /**
   * A shift just above `ATol + RTol * |a|` can still be close, because the
   * relative tolerance grows with the predicted value.
   */
  lemma ShiftAboveTargetToleranceCanBeClose()
    ensures 105.1 - 100.0 > ATol + RTol * 100.0
    ensures IsClose(100.0, 105.1)
  {
  }

  // ---------------------------------------------------------------------
  // The loop over the detector's boxes
  // ---------------------------------------------------------------------

  /** Where the loop over the boxes returns. */
  datatype ScanResult =
    | Found(index: nat)     // an aligned document box: save path
    | Foreign(index: nat)   // a box of another class: "Adjust document in the rectangle"
    | Missing               // loop exhausted: "Document Not Detected!!"

  /** The loop passes over `b`: a document box (class 0) that is not aligned. */
  predicate Skipped(target: Rect, b: Box) {
    b.cls == 0 && !Aligned(target, b)
  }

  predicate AllSkipped(target: Rect, boxes: seq<Box>) {
    forall k | 0 <= k < |boxes| :: Skipped(target, boxes[k])
  }

  /**
   * The box loop of `video_frame_callback`: the first box that is not
   * skipped decides, an aligned document box leading to the save path and
   * any other class to "Adjust".
   */
  function Scan(target: Rect, boxes: seq<Box>): (r: ScanResult)
    ensures r.Found? ==>
      r.index < |boxes| && boxes[r.index].cls == 0 && Aligned(target, boxes[r.index])
      && AllSkipped(target, boxes[..r.index])
    ensures r.Foreign? ==>
      r.index < |boxes| && boxes[r.index].cls != 0 && AllSkipped(target, boxes[..r.index])
    ensures r.Missing? <==> AllSkipped(target, boxes)
    decreases |boxes|
  {
    if |boxes| == 0 then Missing
    else if boxes[0].cls != 0 then Foreign(0)
    else if Aligned(target, boxes[0]) then Found(0)
    else
      var rest := boxes[1..];
      match Scan(target, rest)
      case Found(k) =>
        assert boxes[..k + 1] == [boxes[0]] + rest[..k];
        Found(k + 1)
      case Foreign(k) =>
        assert boxes[..k + 1] == [boxes[0]] + rest[..k];
        Foreign(k + 1)
      case Missing =>
        assert boxes == [boxes[0]] + rest;
        Missing
  }

  // ---------------------------------------------------------------------
  // save_image (capacity check)
  // ---------------------------------------------------------------------

  /** The file name `save_image` gives a capture. */
  function CaptureName(draws: seq<nat>): (n: Name)
    requires Commons.ValidDraws(draws)
    ensures IsJpgName(n)
    ensures |n| == Commons.IdLength + 4
    ensures n[..Commons.IdLength] == Commons.GenerateRandomId(draws) && n[Commons.IdLength..] == ".jpg"
    ensures Commons.IsRandomId(n[..Commons.IdLength])
  {
    var id := Commons.GenerateRandomId(draws);
    assert Commons.IsAlnum(id[0]);
    var n := id + ".jpg";
    assert n[|n| - 4..] == ".jpg";
    n
  }

  /**
   * The demo's `save_image`: with `Capacity` or more images in `dir` it
   * writes nothing and reports the buffer full (true); otherwise it writes
   * `<random id>.jpg` into `dir` and reports false.
   */
  function SaveCapped(d: Disk, dir: Path, draws: seq<nat>): (r: (bool, Disk))
    requires Commons.ValidDraws(draws)
    ensures r.0 <==> |GlobJpg(d, dir)| >= Capacity
    ensures r.0 ==> r.1 == d
    ensures r.1.dirs == d.dirs
    ensures !r.0 ==> d.files <= r.1.files <= d.files + {dir + [CaptureName(draws)]}
    ensures !r.0 && !(IsDir(d, dir) && dir + [CaptureName(draws)] !in d.dirs) ==> r.1 == d
    ensures !r.0 && IsDir(d, dir) && dir + [CaptureName(draws)] !in d.dirs ==>
      && r.1.files == d.files + {dir + [CaptureName(draws)]}
      && GlobJpg(r.1, dir) == GlobJpg(d, dir) + {dir + [CaptureName(draws)]}
    ensures !r.0 && IsDir(d, dir) && !Exists(d, dir + [CaptureName(draws)]) ==>
      |GlobJpg(r.1, dir)| == |GlobJpg(d, dir)| + 1
  {
    if |GlobJpg(d, dir)| >= Capacity then (true, d)
    else
      var target := dir + [CaptureName(draws)];
      var d' := WriteFile(d, target);
      assert Parent(target) == dir;
      assert target[..|dir|] == dir;
      (false, d')
  }

  // ---------------------------------------------------------------------
  // video_frame_callback
  // ---------------------------------------------------------------------

  /**
   * The callback's process globals: the frame counter `i`, the flag
   * `captured` and the timestamp `capture_time`.
   */
  datatype Session = Session(counter: nat, captured: bool, captureTime: Option<real>)

  /** The globals as the module initialises them. */
  const Initial := Session(0, false, None)

  /** A capture time is only ever held while captured. */
  predicate Consistent(s: Session) {
    s.captureTime.Some? ==> s.captured
  }

  /** What the callback returns, by the text it draws on the frame. */
  datatype Outcome =
    | NoOutput                 // not a sampled frame: the callback returns None
    | CapturedBanner           // "Captured!"
    | Saved                    // "Document Detected!! Capturing...", image written and queued
    | BufferFull               // same text, but `save_image` refused to write
    | Adjust                   // "Adjust document in the rectangle"
    | NotDetected              // "Document Not Detected!!"
    | ArchiveFailed(error: FsError)  // `move_images` raised

  /**
   * Everything one callback takes from the outside world: the clock, the
   * detector's boxes, the frame shape, the draws of `generate_random_id` and
   * the timestamp directory name `move_images` would use.
   */
  datatype Frame = Frame(now: real, boxes: seq<Box>, height: nat, width: nat, draws: seq<nat>, stamp: Name)

  /** The new globals, the disk, the outcome, and whether `move_images` ran. */
  datatype StepResult = StepResult(session: Session, disk: Disk, outcome: Outcome, archived: bool)

  /** The callback from the model prediction on (line 86 onward), on session `s`. */
  function Detect(s: Session, d: Disk, dir: Path, f: Frame): (r: StepResult)
    requires Commons.ValidDraws(f.draws)
    ensures !r.archived
    ensures r.session.counter == s.counter && r.session.captureTime == s.captureTime
    ensures r.outcome in {Saved, BufferFull, Adjust, NotDetected}
    ensures r.outcome != BufferFull && r.outcome != Saved ==> r.session == s && r.disk == d
    ensures r.outcome == BufferFull ==> r.session.captured && r.disk == d
    ensures r.outcome == Saved ==> r.session == s.(captured := false) && r.disk == SaveCapped(d, dir, f.draws).1
    ensures var target := BoundingBoxPoints(f.height, f.width);
      && (r.outcome == NotDetected <==> AllSkipped(target, f.boxes))
      && (r.outcome == Adjust <==> Scan(target, f.boxes).Foreign?)
      && (r.outcome in {Saved, BufferFull} <==> Scan(target, f.boxes).Found?)
      && (r.outcome == BufferFull <==> Scan(target, f.boxes).Found? && |GlobJpg(d, dir)| >= Capacity)
  {
    var target := BoundingBoxPoints(f.height, f.width);
    match Scan(target, f.boxes)
    case Missing => StepResult(s, d, NotDetected, false)
    case Foreign(_) => StepResult(s, d, Adjust, false)
    case Found(_) =>
      var (full, d') := SaveCapped(d, dir, f.draws);
      StepResult(s.(captured := full), d', if full then BufferFull else Saved, false)
  }

  /**
   * `video_frame_callback` on session `s`, disk `d` and output directory
   * `dir`. The counter advances on every call; only every fifth call does
   * anything else. While captured the banner is shown until the timer,
   * started on the first sampled frame after the capture, runs out; then the
   * session resets, the images are archived and the same frame goes on to
   * detection.
   */
  function Step(s: Session, d: Disk, dir: Path, f: Frame): (r: StepResult)
    requires Commons.ValidDraws(f.draws)
    ensures r.session.counter == (if r.archived then 0 else s.counter + 1)
    ensures r.session.counter % Stride == (s.counter + 1) % Stride
    ensures r.outcome == NoOutput <==> (s.counter + 1) % Stride != 0
    ensures r.outcome == NoOutput ==> r.session == s.(counter := s.counter + 1) && r.disk == d && !r.archived
    ensures r.archived ==>
      && (s.counter + 1) % Stride == 0 && s.captured && s.captureTime.Some?
      && f.now - s.captureTime.value > TimerDuration
    ensures r.outcome == CapturedBanner ==>
      && s.captured && r.session.captured && r.disk == d && !r.archived
      && r.session.captureTime == Some(if s.captureTime.Some? then s.captureTime.value else f.now)
      && f.now - r.session.captureTime.value <= TimerDuration
    ensures r.outcome != NoOutput ==> (r.session.captured <==> r.outcome in {CapturedBanner, BufferFull})
    ensures Sampled(s) && s.captured && !TimerExpired(s, f.now) ==>
      && r.outcome == CapturedBanner && r.disk == d
      && r.session == Session(s.counter + 1, true, Some(if s.captureTime.Some? then s.captureTime.value else f.now))
    ensures Sampled(s) && TimerExpired(s, f.now) ==> r.archived
    ensures Consistent(s) ==> Consistent(r.session)
    ensures Valid(d) ==> Valid(r.disk)
  {
    var i := s.counter + 1;
    if i % Stride != 0 then StepResult(s.(counter := i), d, NoOutput, false)
    else if s.captured then
      var start := if s.captureTime.Some? then s.captureTime.value else f.now;
      if f.now - start <= TimerDuration then
        StepResult(Session(i, true, Some(start)), d, CapturedBanner, false)
      else
        var reset := Session(0, false, None);
        match Commons.MoveImages(d, dir, f.stamp)
        case Failure(e) => StepResult(reset, d, ArchiveFailed(e), true)
        case Success(d1) =>
          assert Valid(d) ==> Valid(d1) by {
            if Valid(d) {
              Commons.MoveImagesPreservesValid(d, dir, f.stamp);
            }
          }
          DetectPreservesValid(reset, d1, dir, f);
          Detect(reset, d1, dir, f).(archived := true)
    else
      DetectPreservesValid(s.(counter := i), d, dir, f);
      Detect(s.(counter := i), d, dir, f)
  }

  /** Every fifth call is a sampled one. */
  predicate Sampled(s: Session) {
    (s.counter + 1) % Stride == 0
  }

  /** The banner's time is up: captured, stamped, and more than `TimerDuration` ago. */
  predicate TimerExpired(s: Session, now: real) {
    s.captured && s.captureTime.Some? && now - s.captureTime.value > TimerDuration
  }

  /** The capped save keeps a well-formed disk well formed. */
  lemma SaveCappedPreservesValid(d: Disk, dir: Path, draws: seq<nat>)
    requires Commons.ValidDraws(draws)
    requires Valid(d)
    ensures Valid(SaveCapped(d, dir, draws).1)
  {
    WriteFilePreservesValid(d, dir + [CaptureName(draws)]);
  }

  /** Detection keeps a well-formed disk well formed. */
  lemma DetectPreservesValid(s: Session, d: Disk, dir: Path, f: Frame)
    requires Commons.ValidDraws(f.draws)
    ensures Valid(d) ==> Valid(Detect(s, d, dir, f).disk)
  {
    if Valid(d) {
      SaveCappedPreservesValid(d, dir, f.draws);
    }
  }

  /**
   * When the timer has run out the session resets (counter 0, not captured,
   * no capture time), `move_images` runs, and the same frame goes on to
   * detection; if archiving raises, the reset has already happened.
   */
  lemma ExpiryResetsThenDetects(s: Session, d: Disk, dir: Path, f: Frame)
    requires Commons.ValidDraws(f.draws)
    requires Sampled(s) && TimerExpired(s, f.now)
    ensures var r := Step(s, d, dir, f);
      && r.archived
      && r.session.counter == 0 && r.session.captureTime.None?
      && (r.session.captured <==> r.outcome == BufferFull)
      && match Commons.MoveImages(d, dir, f.stamp)
         case Failure(e) => r.outcome == ArchiveFailed(e) && r.disk == d && r.session == Initial
         case Success(d1) => r == Detect(Initial, d1, dir, f).(archived := true)
  {
  }

  /**
   * On the frame that archives, an aligned document is always written: once
   * the images have moved away the directory holds none, so the cap cannot
   * be reached (the timestamp name is never itself a `*.jpg` name).
   */
  lemma ArchivingFrameNeverBufferFull(s: Session, d: Disk, dir: Path, f: Frame)
    requires Commons.ValidDraws(f.draws)
    requires Sampled(s) && TimerExpired(s, f.now)
    requires !IsJpgName(f.stamp)
    requires Commons.MoveImages(d, dir, f.stamp).Success?
    ensures Step(s, d, dir, f).outcome != BufferFull
  {
    ArchiveLeavesNoImage(d, dir, f.stamp);
  }

  /** A successful archive into a directory whose name is not itself an image name leaves no image to count. */
  lemma ArchiveLeavesNoImage(d: Disk, dir: Path, stamp: Name)
    requires !IsJpgName(stamp)
    requires Commons.MoveImages(d, dir, stamp).Success?
    ensures GlobJpg(Commons.MoveImages(d, dir, stamp).value, dir) == {}
  {
    var d1 := Commons.MoveImages(d, dir, stamp).value;
    if GlobJpg(d, dir) != {} {
      Commons.MoveImagesArchives(d, dir, stamp);
      assert GlobJpg(d1, dir) <= {dir + [stamp]};
      assert dir + [stamp] !in GlobJpg(d1, dir) by {
        assert (dir + [stamp])[|dir|] == stamp;
      }
    }
  }

  /**
   * A sampled frame of an uncaptured session runs detection: the outcome is
   * fixed by the first box the loop does not skip, and only an aligned
   * document box with room in the directory writes an image.
   */
  lemma UncapturedFrameDetects(s: Session, d: Disk, dir: Path, f: Frame)
    requires Commons.ValidDraws(f.draws)
    requires Sampled(s) && !s.captured
    ensures var r := Step(s, d, dir, f);
      var target := BoundingBoxPoints(f.height, f.width);
      && !r.archived
      && r.session.counter == s.counter + 1 && r.session.captureTime == s.captureTime
      && (r.outcome == NotDetected <==> AllSkipped(target, f.boxes))
      && (r.outcome == Adjust <==> Scan(target, f.boxes).Foreign?)
      && (r.outcome == Saved <==> Scan(target, f.boxes).Found? && |GlobJpg(d, dir)| < Capacity)
      && (r.outcome == BufferFull <==> Scan(target, f.boxes).Found? && |GlobJpg(d, dir)| >= Capacity)
      && (r.outcome == Saved && IsDir(d, dir) && dir + [CaptureName(f.draws)] !in d.dirs ==>
            r.disk.files == d.files + {dir + [CaptureName(f.draws)]})
      && (r.outcome == Saved ==> r.disk == SaveCapped(d, dir, f.draws).1)
      && (r.outcome != Saved ==> r.disk == d)
  {
  }
}
